=== FILE: README.md ===
# Blackjack round engine — a Dafny model

This project models the round-resolution engine of a Monte Carlo blackjack
simulator (`blackjack_simulation.py`). The simulator plays single-hand
rounds against an infinite deck, with the player following fixed strategy
tables, and it accumulates statistics over a batch of rounds. The model
covers five parts:

- **Hand valuation** (module `Cards`). `hand_value` sums the non-Ace cards,
  then counts each Ace greedily as 11 while the running total is at most 10
  and as 1 otherwise. `soft_hand` calls a hand soft when it holds an Ace and
  its non-Ace cards sum to at most 10. Cards are a ten-symbol `Card`
  datatype, and hands are `seq<Card>`.
- **Player step** (module `Player`). `players_response` maps a strategy
  code and the current hand to a new bet and four flags: surrendered,
  stand, blackjack and double.
- **Dealer rule** (module `Dealer`). `dealers_response` runs one of two
  drawing loops, chosen by `hits_soft_17`, and then reports a bust.
- **One round** (module `Round`). `play_blackjack` runs the player's
  decision loop, then the dealer, then the payout comparison.
- **Batch** (module `Simulation`). The `Simulation` constructor plays
  `rounds` rounds. It keeps the results, their prefix sums and the category
  counters, and computes `win_percent`.

The card source is a parameter: a stream `Deck = nat -> Card` and a
position. A round deals the player two cards, then the dealer's upcard, and
then every later draw, in that order. The four strategy tables are a
parameter too. Each table is a function `(int, Card) -> Option<string>`, and
`None` stands for the entry whose absence makes the source raise `KeyError`.
That error becomes `Failure(MissingStrategyEntry(..))`, and it aborts the
round and the batch. Bets are `real`, so ×2, ×1.5 and ÷2 are exact, and so
are the equality tests of the classification.

Four behaviours of the code are easy to misread:

- The module docstring says the dealer "can be set to either hit or stand
  on soft 17" (line 5). But the `hits_soft_17` dealer stops on a hard hand
  worth 16 or more, or on a soft hand worth 17 or more (lines 130-133). So
  it **stands** on soft 17, like the standard dealer. It also stands on hard
  16, where the standard dealer draws. Hard 16 is the only hand on which the
  two rules decide differently (`Dealer.RulesDifferOnlyOnHardSixteen`).
- A `D` code on a hand of three or more cards raises no error. It acts as a
  hit. An `R` code surrenders and halves the current bet at any hand size.
  Any other code (`H` or an unexpected one) also acts as a hit (lines
  102-114).
- `hand_value` does not always give the best total. Ten, Ace, Ace is valued
  22, not 12, because the first Ace counts 11 on top of a non-Ace sum of 10.
  `Cards.HandValueVersusBest` proves that this happens exactly on soft hands
  whose all-Aces-as-1 sum is at least 12. There the value always exceeds 21.
  The round uses the valuation as written, so such a hand busts.
- A double can pay twice the bet. The constructor's classification counts
  a doubled win (+2×bet) as a loss (`Simulation.ClassifyRoundOutcomes`).

Termination: both drawing loops are recursive functions. Their measure is
the hand total with every Ace counted as 1 (`HardSum`). Each draw raises it
by 1 to 10 (`Cards.HardSumAppend`), and neither loop continues past 21.

## Model

| member | source | states |
|---|---|---|
| Cards.AddAces | blackjack_simulation.py:75-79 | The greedy Ace loop adds one per Ace, plus 10 more exactly when there is at least one Ace and the starting total is at most 10. Only the first Ace can count 11. |
| Cards.HandValueClosedForm | blackjack_simulation.py:62-83 | `hand_value` is the all-Aces-as-1 sum, plus 10 exactly when the hand is soft. It is never below that sum. A hand without Aces is worth its plain sum and is never soft. |
| Cards.ValueDependsOnlyOnCards | blackjack_simulation.py:67-79 | Two hands holding the same multiset of cards have the same value and the same softness, whatever their order. |
| Cards.NonAceSumIsWeight | blackjack_simulation.py:71-73 | The non-Ace sum is a weighted count of the ranks in the hand's multiset. |
| Cards.AceCountIsMultiplicity | blackjack_simulation.py:70 | The Ace count is the multiplicity of Ace in the hand's multiset. |
| Cards.HandValueVersusBest | blackjack_simulation.py:67-79 | The value equals the best achievable total (the largest total ≤ 21 over all Ace choices) whenever it does not bust. It differs from that total exactly on soft hands whose all-Aces-as-1 sum is ≥ 12, and then it exceeds 21. |
| Cards.HandValueNotAlwaysBest | blackjack_simulation.py:67-79 | Ten, Ace, Ace is valued 22 although its best total is 12. |
| Cards.HardSumAppend | blackjack_simulation.py:55-56 | Drawing a card raises the all-Aces-as-1 sum by that card's rank, which is 1 to 10. |
| Cards.HardSumAtLeastSize | blackjack_simulation.py:55-56 | Every card adds at least 1 to the all-Aces-as-1 sum. |
| Cards.ValueOfTwoOrMoreCards | blackjack_simulation.py:60-93 | A hand of two or more cards is worth at least 12 when soft and at least 4 when hard, so soft totals 2 to 11 and hard totals 2 and 3 are never looked up. |
| Cards.ValuationExamples | blackjack_simulation.py:62-93 | Worked values: 10+10=20, A+10=21, A+A+9=21, 10+9 is hard 19, A+6 is soft 17, A+6+10 is hard, 10+6 is hard 16. |
| Player.PlayersResponse | blackjack_simulation.py:96-116 | The surrendered flag is set iff the code is R, and stand iff the code is S. Blackjack is set iff S is played on a two-card 21. Double is set iff D is played on a two-card hand. The new bet is the old bet times ½, 3/2, 2 or 1, according to the flag set. |
| Player.ResponseFlagsConsistent | blackjack_simulation.py:96-116 | Blackjack implies stand. At most one of surrendered, stand and double is set. With no adjusting flag the bet is unchanged. |
| Player.IllegalCodesRaiseNoError | blackjack_simulation.py:102-114 | On a hand that is not two cards, D behaves exactly like a hit (bet unchanged, no flag set), and R still surrenders with half the bet. |
| Dealer.DrawStandard | blackjack_simulation.py:122-124 | The standard loop only appends stream cards. It ends on a hand worth at least 17. |
| Dealer.StandardStopsAtFirstChance | blackjack_simulation.py:122-124 | The standard dealer stops at the first extension worth 17 or more: no shorter extension was. |
| Dealer.DrawSoftSeventeen | blackjack_simulation.py:125-135 | The `hits_soft_17` loop only appends stream cards. It ends on a hand that is hard and worth ≥ 16, or soft and worth ≥ 17. |
| Dealer.SoftSeventeenStopsAtFirstChance | blackjack_simulation.py:125-135 | The `hits_soft_17` dealer stops at the first extension that meets its stopping condition. |
| Dealer.DealersResponse | blackjack_simulation.py:119-140 | The bust flag is set iff the final hand exceeds 21. The standard dealer ends at ≥ 17. A hand that already meets the rule's stopping condition receives no card. |
| Dealer.RulesDifferOnlyOnHardSixteen | blackjack_simulation.py:122-135 | The two rules' stop decisions differ exactly on a hard 16, where `hits_soft_17` stands and the standard dealer draws. Both stand on soft 17. |
| Dealer.SameRunWithoutHardSixteen | blackjack_simulation.py:122-135 | If the standard dealer's run never passes a hard 16, the `hits_soft_17` dealer draws exactly the same cards. |
| Dealer.DealerExamples | blackjack_simulation.py:119-140 | Both rules stand on Ace-Six. On Ten-Six the `hits_soft_17` dealer stands and the standard dealer draws. |
| Round.PlayerTurn | blackjack_simulation.py:157-181 | The player's loop only appends the next stream cards to the hand. It ends as a bust iff the final value exceeds 21. A failure names a missing entry of the rule's tables, of either softness, for this upcard, with a total between the starting all-Aces-as-1 sum and 21. `Round.PlayerFailsOnTable` pins which entry it is. |
| Round.ApplyResponse | blackjack_simulation.py:170-181 | The same for the rest of one pass: the hand only grows by the next stream cards, and the pass ends as a bust iff the value exceeds 21. |
| Round.DrawAfter | blackjack_simulation.py:173-181 | The same once a card is drawn: the hand grows by at least that card, and the loop ends as a bust iff the value exceeds 21. |
| Round.PlayerFollowsTable | blackjack_simulation.py:157-181 | The loop keeps to its guard and acts on the strategy table. No hand before the last is bust, so the table is consulted only on hands worth at most 21. Every decision before the last is the table's entry for the current hand's softness and value against the upcard, and it is a hitting code. A loop that ends neither bust nor doubled ends on the final hand's entry: R for a surrender, S for a stand. A double comes from a D entry on the two-card hand just before the last card, and from a two-card start it draws exactly one card. |
| Round.PlayerFailsOnTable | blackjack_simulation.py:157-181 | A failing loop raises `KeyError` on the lookup for a hand it reached (lines 159-168). It hit on every earlier hand, and neither that hand nor any earlier one was bust. The error names exactly the entry for that hand's own softness and value against the upcard. |
| Round.TurnFailsOnlyWithoutCover | blackjack_simulation.py:157-168 | A loop started on two or more cards fails only when the rule's tables miss a hard entry for 4 to 21 or a soft entry for 12 to 21 against some upcard. |
| Round.BetAdjustedAtMostOnce | blackjack_simulation.py:157-181 | The bet changes at most once in the loop, and the change ends the loop. A surrender halves it and never busts. A blackjack is ×1.5 on a two-card 21. Conversely, a loop that ends on a two-card 21 neither bust, surrendered nor doubled ends in a blackjack. A double is ×2 and leaves exactly three cards. Otherwise the bet is unchanged. |
| Round.ResponseAdjustsBetOnce | blackjack_simulation.py:170-181 | The same bet property for the rest of one pass, including that a stand on a two-card 21 is a blackjack. The pass draws no card exactly when the response stood or surrendered, and a double draws exactly one card and ends the loop. |
| Round.StopsAtFirstBust | blackjack_simulation.py:157-181 | A bust ends the player's loop at once: every hand the loop held before its final one is worth at most 21, so no decision is taken and no card is drawn on a bust hand. |
| Round.TwoCardsNeverBust | blackjack_simulation.py:151-157 | The initial two-card hand is worth 2 to 21, so the loop starts not bust. |
| Round.PlayBlackjack | blackjack_simulation.py:143-197 | The player's first two cards and the dealer's upcard are the first three stream cards. The player's end state is the player's loop run on those two cards from the fourth card on. Bust or surrender pays −(current bet) with no dealer play. Otherwise the dealer's hand is the dealer's rule run on the upcard from where the player stopped. Then a dealer bust or a higher player total pays +bet, a lower one −bet, and a tie 0. With tables that hold hard totals 4 to 21 and soft totals 12 to 21 for every upcard, the round never fails. |
| Round.RoundPaysOneOfSevenAmounts | blackjack_simulation.py:183-197 | A round pays one of −2b, −b, −b/2, 0, b, 1.5b and 2b for bet b. A surrender pays −b/2. A blackjack pays 1.5b or 0. A player who does not surrender and ends on a two-card 21 has a blackjack, paid 1.5b or 0. A double pays ±2b or 0. |
| Round.ScriptedRoundLoses | blackjack_simulation.py:143-197 | Player 10,9 stands on hard 19 against an Ace. The dealer draws a 10 to 21 and stands. The round pays −bet. |
| Round.ScriptedPlayerStands | blackjack_simulation.py:157-181 | In that round the player's loop ends at once, with the hand and bet unchanged. |
| Round.ScriptedDealerDraws | blackjack_simulation.py:122-124 | In that round the standard dealer draws one card to Ace-Ten and does not bust. |
| Simulation.ClassifyRoundOutcomes | blackjack_simulation.py:221-231 | With a non-zero bet, 1.5b is a blackjack, b a win, −b/2 a surrender and 0 a tie. The amounts −b, −2b and a doubled win 2b are losses. |
| Simulation.CountsPartition | blackjack_simulation.py:221-231 | Every result falls in exactly one category, so the five category counts add up to the number of results. |
| Simulation.Aggregate | blackjack_simulation.py:215-231 | The results are kept in order. The cumulative profit at i is the sum of the first i+1 results, and the total is their sum. Each counter is the number of results in its category, and wins include blackjacks. wins + loses + ties + surrenders equals the number of rounds, and blackjacks ≤ wins. |
| Simulation.PlayRounds | blackjack_simulation.py:215-216 | The batch plays exactly `rounds` rounds in sequence on the stream: round i starts where round i − 1 left it, and result i is that round's payout. Every result is one of the seven amounts. A failure means the rule's tables miss a hard entry for 4 to 21 or a soft entry for 12 to 21. |
| Simulation.NewSimulation | blackjack_simulation.py:200-236 | The results are those of the rounds played in sequence, max(rounds, 0) of them, each one of the seven amounts. Cumulative profit i is the sum of the first i + 1 results, and the total is their sum. Each counter is the number of results in its category, so a doubled win counts as a loss, and the counters partition the rounds. win_percent = sum / (rounds·bet) · 100. ZeroDivision is raised only when rounds·bet = 0. With tables that hold those entries, the constructor succeeds iff rounds·bet ≠ 0. |

## Left out

- Loading the strategy tables from CSV files (`from_csv_to_dict` and the module-level loads, lines 15-49): file I/O. The tables are an abstract parameter, and a missing entry is the `None` case.
- `random.choice` in `draw_card` and the fourfold weight of `"10"` in `CARD_DECK` (lines 52-56): randomness and probabilities. A stream of cards replaces them, so no statement about expected return is made.
- `hand_value_cache` (lines 59, 65, 81): memoisation with no effect on results. The pure valuation is modelled.
- `time.perf_counter` and `running_time` (lines 213, 233-235): wall-clock timing.
- `overview`, `plot_profit_cumulative` and `plot_profit_percent` (lines 238-266): printing and plotting.
- `examples.py`: a script that only builds simulations, prints and plots.
- Floating-point rounding of the bet: bets are exact reals.
- Round.PlayerTurn: its own contract does not say that the loop stops at the first bust, because that clause makes the proofs of these mutually recursive functions too costly. `Round.StopsAtFirstBust` and `Round.PlayerFollowsTable` state the stop. Its failure clause also leaves open which hand's entry is missing. `Round.PlayerFailsOnTable` states that as a separate whole-loop lemma, next to the success case in `Round.PlayerFollowsTable`.
- Round.ApplyResponse: likewise, the stop at the first bust and the missing entry are stated about the whole loop by `Round.StopsAtFirstBust` and `Round.PlayerFailsOnTable`, not about one pass.
- Round.DrawAfter: likewise, the stop at the first bust and the missing entry are stated about the whole loop by `Round.StopsAtFirstBust` and `Round.PlayerFailsOnTable`, not after one draw.
- The constructor interleaves playing and counting. The model plays all rounds (`PlayRounds`) and then counts (`Aggregate`). Counting does not influence the rounds, and a failing round aborts the constructor either way.

=== FILE: cards.dfy ===
/** Cards, hands and hand valuation: `hand_value` and `soft_hand` of
    blackjack_simulation.py, plus the card stream that replaces `draw_card`. */
module Cards {

  /** A rank symbol of the infinite deck. `Ten` also stands for the face cards. */
  datatype Card = Ace | Two | Three | Four | Five | Six | Seven | Eight | Nine | Ten

  /** A hand in the order its cards were dealt. */
  type Hand = seq<Card>

  /** The card source: the i-th card that `draw_card` would deal. */
  type Deck = nat -> Card

  /** Rank of a card with an Ace counted as 1; a non-Ace card is worth its number. */
  function Pips(c: Card): (p: int)
    ensures 1 <= p <= 10
    ensures p == 1 <==> c == Ace
  {
    match c
    case Ace => 1
    case Two => 2
    case Three => 3
    case Four => 4
    case Five => 5
    case Six => 6
    case Seven => 7
    case Eight => 8
    case Nine => 9
    case Ten => 10
  }

  /** The `n` cards dealt from position `pos` of the stream, in order. */
  function Draws(deck: Deck, pos: nat, n: nat): (cards: seq<Card>)
    ensures |cards| == n
    decreases n
  {
    if n == 0 then [] else [deck(pos)] + Draws(deck, pos + 1, n - 1)
  }

  /** Drawing n + 1 cards is drawing n cards and then the next one. */
  lemma {:induction false} DrawsLast(deck: Deck, pos: nat, n: nat)
    ensures Draws(deck, pos, n + 1) == Draws(deck, pos, n) + [deck(pos + n)]
    decreases n
  {
    if n > 0 {
      DrawsLast(deck, pos + 1, n - 1);
      assert [deck(pos)] + (Draws(deck, pos + 1, n - 1) + [deck(pos + n)])
          == ([deck(pos)] + Draws(deck, pos + 1, n - 1)) + [deck(pos + n)];
    }
  }

  /** A hand after `n` more cards were drawn into it from position `pos`. */
  function Extend(hand: Hand, deck: Deck, pos: nat, n: nat): (h: Hand)
    ensures |h| == |hand| + n
  {
    hand + Draws(deck, pos, n)
  }

  /** Drawing nothing leaves the hand unchanged; drawing n + 1 cards is
      drawing n cards and then the next one. */
  lemma ExtendStep(hand: Hand, deck: Deck, pos: nat, n: nat)
    ensures Extend(hand, deck, pos, 0) == hand
    ensures Extend(hand, deck, pos, n + 1) == Extend(hand, deck, pos, n) + [deck(pos + n)]
  {
    DrawsLast(deck, pos, n);
    assert hand + (Draws(deck, pos, n) + [deck(pos + n)]) == (hand + Draws(deck, pos, n)) + [deck(pos + n)];
  }

  /** Drawing one card and then `n` more is drawing `n + 1` cards. */
  lemma ExtendFirst(hand: Hand, deck: Deck, pos: nat, n: nat)
    ensures Extend(hand + [deck(pos)], deck, pos + 1, n) == Extend(hand, deck, pos, n + 1)
  {
    assert (hand + [deck(pos)]) + Draws(deck, pos + 1, n) == hand + ([deck(pos)] + Draws(deck, pos + 1, n));
  }

  /** A property of a hand and of its first `n` extensions by the next card
      and what follows holds of the first `n + 1` extensions of the hand. */
  lemma ExtensionsFromNext(p: Hand -> bool, hand: Hand, longer: Hand, deck: Deck, pos: nat, next: nat, n: nat)
    requires longer == hand + [deck(pos)] && next == pos + 1
    requires p(hand)
    requires forall k :: 0 <= k < n ==> p(Extend(longer, deck, next, k))
    ensures forall k :: 0 <= k < n + 1 ==> p(Extend(hand, deck, pos, k))
  {
    forall k | 0 <= k < n + 1
      ensures p(Extend(hand, deck, pos, k))
    {
      if k == 0 {
        ExtendStep(hand, deck, pos, 0);
      } else {
        ExtendFirst(hand, deck, pos, k - 1);
      }
    }
  }

  /** Conversely, a property of the first `n + 2` extensions of a hand holds
      of the first `n + 1` extensions of the hand with the next card added. */
  lemma ExtensionsOfNext(p: Hand -> bool, hand: Hand, longer: Hand, deck: Deck, pos: nat, next: nat, n: nat)
    requires longer == hand + [deck(pos)] && next == pos + 1
    requires forall k :: 0 <= k <= n + 1 ==> p(Extend(hand, deck, pos, k))
    ensures forall k :: 0 <= k <= n ==> p(Extend(longer, deck, next, k))
  {
    forall k | 0 <= k <= n
      ensures p(Extend(longer, deck, next, k))
    {
      ExtendFirst(hand, deck, pos, k);
    }
  }

  /** Sum of the non-Ace cards of a hand. */
  function NonAceSum(hand: Hand): (s: nat)
  {
    if |hand| == 0 then 0
    else
      var last := hand[|hand| - 1];
      NonAceSum(hand[..|hand| - 1]) + (if last == Ace then 0 else Pips(last))
  }

  /** Number of Aces in a hand (`hand.count("Ace")`). */
  function AceCount(hand: Hand): (n: nat)
    ensures n == 0 <==> Ace !in hand
  {
    if |hand| == 0 then 0
    else
      var last := hand[|hand| - 1];
      AceCount(hand[..|hand| - 1]) + (if last == Ace then 1 else 0)
  }

  /** The hand total with every Ace counted as 1. */
  function HardSum(hand: Hand): nat
  {
    NonAceSum(hand) + AceCount(hand)
  }

  /** The greedy Ace loop of `hand_value`: starting from `value`, each of the
      `aces` Aces adds 11 while the running total is at most 10, else 1. At
      most the first Ace can add 11, so the loop adds 10 on top of the
      all-Aces-as-1 sum exactly when there is an Ace and `value` is at most 10. */
  function AddAces(value: nat, aces: nat): (r: nat)
    ensures r == value + aces + (if aces > 0 && value <= 10 then 10 else 0)
    decreases aces
  {
    if aces == 0 then value
    else AddAces(if value <= 10 then value + 11 else value + 1, aces - 1)
  }

  /** `soft_hand`: the hand has an Ace and its non-Ace cards sum to at most 10. */
  predicate IsSoft(hand: Hand)
  {
    Ace in hand && NonAceSum(hand) <= 10
  }

  /** `hand_value`: the non-Ace sum, then the greedy Ace loop when the hand
      holds an Ace. */
  function HandValue(hand: Hand): int
  {
    if Ace !in hand then NonAceSum(hand)
    else AddAces(NonAceSum(hand), AceCount(hand))
  }

  /** `hand_value` is the all-Aces-as-1 sum, plus 10 exactly when the hand is
      soft, that is, when it holds an Ace and its non-Ace cards sum to at most
      10. It is never below the all-Aces-as-1 sum, and a hand without Aces is
      worth its plain sum and is never soft. */
  lemma HandValueClosedForm(hand: Hand)
    ensures HandValue(hand) == HardSum(hand) + (if IsSoft(hand) then 10 else 0)
    ensures HardSum(hand) <= HandValue(hand) <= HardSum(hand) + 10
    ensures Ace !in hand ==> !IsSoft(hand) && HandValue(hand) == NonAceSum(hand) == HardSum(hand)
  {
  }

  /** Appending a card raises the all-Aces-as-1 sum by that card's rank, so
      every draw raises it by 1 to 10: the termination measure of both loops. */
  lemma HardSumAppend(hand: Hand, c: Card)
    ensures HardSum(hand + [c]) == HardSum(hand) + Pips(c)
    ensures HardSum(hand) < HardSum(hand + [c]) <= HardSum(hand) + 10
  {
    assert (hand + [c])[..|hand|] == hand;
  }

  /** Every card counts at least 1 towards the all-Aces-as-1 sum. */
  lemma {:induction false} HardSumAtLeastSize(hand: Hand)
    ensures HardSum(hand) >= |hand|
  {
    if |hand| > 0 {
      var init := hand[..|hand| - 1];
      HardSumAtLeastSize(init);
      assert hand == init + [hand[|hand| - 1]];
      HardSumAppend(init, hand[|hand| - 1]);
    }
  }

  /** Without Aces every card is worth at least 2. */
  lemma {:induction false} NoAceSumAtLeastTwice(hand: Hand)
    requires Ace !in hand
    ensures NonAceSum(hand) >= 2 * |hand|
  {
    if |hand| > 0 {
      var init := hand[..|hand| - 1];
      assert hand == init + [hand[|hand| - 1]];
      NoAceSumAtLeastTwice(init);
    }
  }

  /** The totals a hand of two or more cards can show: a soft hand is worth
      at least 12 and a hard one at least 4, so soft totals 2 to 11 and hard
      totals 2 and 3 never occur. */
  lemma ValueOfTwoOrMoreCards(hand: Hand)
    requires |hand| >= 2
    ensures IsSoft(hand) ==> HandValue(hand) >= 12
    ensures !IsSoft(hand) ==> HandValue(hand) >= 4
  {
    HandValueClosedForm(hand);
    HardSumAtLeastSize(hand);
    if Ace !in hand {
      NoAceSumAtLeastTwice(hand);
    }
  }

  /** Weighted count of the non-Ace ranks of a multiset of cards. */
  function NonAceWeight(m: multiset<Card>): nat
  {
    2 * m[Two] + 3 * m[Three] + 4 * m[Four] + 5 * m[Five] + 6 * m[Six]
    + 7 * m[Seven] + 8 * m[Eight] + 9 * m[Nine] + 10 * m[Ten]
  }

  /** The non-Ace sum depends only on how many cards of each rank the hand holds. */
  lemma {:induction false} NonAceSumIsWeight(hand: Hand)
    ensures NonAceSum(hand) == NonAceWeight(multiset(hand))
  {
    if |hand| > 0 {
      var init := hand[..|hand| - 1];
      var last := hand[|hand| - 1];
      NonAceSumIsWeight(init);
      assert hand == init + [last];
      assert multiset(hand) == multiset(init) + multiset{last};
      NonAceWeightAdd(multiset(init), last);
    }
  }

  /** Adding a card to a multiset adds its weight: its rank, or nothing for
      an Ace. */
  lemma NonAceWeightAdd(m: multiset<Card>, c: Card)
    ensures NonAceWeight(m + multiset{c}) == NonAceWeight(m) + (if c == Ace then 0 else Pips(c))
  {
    var m' := m + multiset{c};
    match c
    case Ace =>
    case Two => assert m'[Two] == m[Two] + 1;
    case Three => assert m'[Three] == m[Three] + 1;
    case Four => assert m'[Four] == m[Four] + 1;
    case Five => assert m'[Five] == m[Five] + 1;
    case Six => assert m'[Six] == m[Six] + 1;
    case Seven => assert m'[Seven] == m[Seven] + 1;
    case Eight => assert m'[Eight] == m[Eight] + 1;
    case Nine => assert m'[Nine] == m[Nine] + 1;
    case Ten => assert m'[Ten] == m[Ten] + 1;
  }

  /** The Ace count is the multiplicity of Ace in the hand's multiset of cards. */
  lemma {:induction false} AceCountIsMultiplicity(hand: Hand)
    ensures AceCount(hand) == multiset(hand)[Ace]
  {
    if |hand| > 0 {
      var init := hand[..|hand| - 1];
      AceCountIsMultiplicity(init);
      assert hand == init + [hand[|hand| - 1]];
    }
  }

  /** Valuation and softness ignore the order of the cards: two hands holding
      the same cards are worth the same and are both soft or both hard. */
  lemma ValueDependsOnlyOnCards(a: Hand, b: Hand)
    requires multiset(a) == multiset(b)
    ensures HandValue(a) == HandValue(b)
    ensures IsSoft(a) == IsSoft(b)
  {
    NonAceSumIsWeight(a);
    NonAceSumIsWeight(b);
    AceCountIsMultiplicity(a);
    AceCountIsMultiplicity(b);
    assert Ace in a <==> Ace in multiset(a);
    assert Ace in b <==> Ace in multiset(b);
  }

  /** A total obtainable by counting `k` of the hand's Aces as 11 and the rest as 1. */
  ghost predicate Achievable(hand: Hand, total: int)
  {
    exists k :: 0 <= k <= AceCount(hand) && total == HardSum(hand) + 10 * k
  }

  /** The best total of a hand: the largest achievable total that does not
      exceed 21, or the all-Aces-as-1 sum when every achievable total does. */
  function BestValue(hand: Hand): (v: int)
    ensures Achievable(hand, v)
    ensures forall t :: Achievable(hand, t) && t <= 21 ==> t <= v
    ensures v > 21 ==> v == HardSum(hand)
  {
    assert HardSum(hand) == HardSum(hand) + 10 * 0;
    if AceCount(hand) > 0 && HardSum(hand) <= 11 then
      assert HardSum(hand) + 10 == HardSum(hand) + 10 * 1;
      HardSum(hand) + 10
    else HardSum(hand)
  }

  /** `hand_value` gives the best total whenever it does not bust, and differs
      from it exactly on soft hands whose all-Aces-as-1 sum is at least 12:
      there it reports a bust although counting every Ace as 1 would not bust
      whenever that sum is at most 21. */
  lemma HandValueVersusBest(hand: Hand)
    ensures HandValue(hand) <= 21 ==> HandValue(hand) == BestValue(hand)
    ensures HandValue(hand) != BestValue(hand) <==> IsSoft(hand) && HardSum(hand) >= 12
    ensures HandValue(hand) != BestValue(hand) ==> HandValue(hand) > 21 && BestValue(hand) == HardSum(hand)
  {
  }

  /** Ten, Ace, Ace is valued 22 although its best total is 12. */
  lemma HandValueNotAlwaysBest()
    ensures HandValue([Ten, Ace, Ace]) == 22
    ensures BestValue([Ten, Ace, Ace]) == 12
  {
    var h := [Ten, Ace, Ace];
    assert h[..2] == [Ten, Ace] && h[..2][..1] == [Ten] && h[..2][..1][..0] == [];
    assert NonAceSum([Ten]) == 10;
    assert NonAceSum([Ten, Ace]) == 10;
    assert NonAceSum(h) == 10;
    assert AceCount(h) == 2;
  }

  /** Worked valuations: two Tens are 20, Ace and Ten are 21, Ace, Ace and
      Nine are 21 (the first Ace counts 11, the second 1), Ten and Nine are a
      hard 19, a lone Ace is 11, Ace and Six are soft, and Ace, Six and Ten
      are hard. */
  lemma ValuationExamples()
    ensures HandValue([Ten, Ten]) == 20
    ensures HandValue([Ace, Ten]) == 21
    ensures HandValue([Ace, Ace, Nine]) == 21
    ensures HandValue([Ten, Nine]) == 19 && !IsSoft([Ten, Nine])
    ensures HandValue([Ace]) == 11
    ensures IsSoft([Ace, Six])
    ensures !IsSoft([Ace, Six, Ten])
    ensures HandValue([Ace, Six]) == 17
    ensures HandValue([Ten, Six]) == 16 && !IsSoft([Ten, Six])
  {
    assert [Ten, Ten][..1] == [Ten] && [Ten, Nine][..1] == [Ten] && [Ace, Ten][..1] == [Ace];
    assert [Ace, Six][..1] == [Ace] && [Ace, Six, Ten][..2] == [Ace, Six] && [Ten, Six][..1] == [Ten];
    assert [Ace, Ace, Nine][..2] == [Ace, Ace] && [Ace, Ace][..1] == [Ace] && [Ace][..0] == [];
    assert [Ten][..0] == [];
    assert NonAceSum([Ten]) == 10 && NonAceSum([Ace]) == 0;
    assert NonAceSum([Ten, Ten]) == 20 && NonAceSum([Ten, Nine]) == 19 && NonAceSum([Ace, Ten]) == 10;
    assert NonAceSum([Ace, Ace]) == 0 && NonAceSum([Ace, Ace, Nine]) == 9;
    assert NonAceSum([Ace, Six]) == 6 && NonAceSum([Ace, Six, Ten]) == 16 && NonAceSum([Ten, Six]) == 16;
    assert AceCount([Ace, Six]) == 1;
    assert AceCount([Ace]) == 1 && AceCount([Ace, Ten]) == 1;
    assert AceCount([Ace, Ace]) == 2 && AceCount([Ace, Ace, Nine]) == 2;
  }
}

=== FILE: dealer.dfy ===
/** The dealer's drawing rules: `dealers_response`, with its two variants
    selected by `hits_soft_17`. */
module Dealer {
  import opened Cards

  /** The standard dealer stops once the hand is worth 17 or more, soft 17 included. */
  predicate StandardStops(hand: Hand)
  {
    HandValue(hand) >= 17
  }

  /** The `hits_soft_17` dealer stops on a hard hand worth 16 or more or on a
      soft hand worth 17 or more. */
  predicate SoftSeventeenStops(hand: Hand)
  {
    (!IsSoft(hand) && HandValue(hand) >= 16) || (IsSoft(hand) && HandValue(hand) >= 17)
  }

  /** A dealer's hand after its drawing loop and the stream position after the
      last card drawn. */
  datatype Drawn = Drawn(hand: Hand, pos: nat)

  /** The standard loop: draw while the hand is worth at most 16. */
  function DrawStandard(hand: Hand, deck: Deck, pos: nat): (r: Drawn)
    ensures r.pos >= pos && r.hand == Extend(hand, deck, pos, r.pos - pos)
    ensures StandardStops(r.hand)
    decreases 17 - HardSum(hand)
  {
    if HandValue(hand) <= 16 then
      HardSumAppend(hand, deck(pos));
      var r := DrawStandard(hand + [deck(pos)], deck, pos + 1);
      ExtendFirst(hand, deck, pos, r.pos - pos - 1);
      r
    else
      ExtendStep(hand, deck, pos, 0);
      Drawn(hand, pos)
  }

  /** The `hits_soft_17` loop: draw until `SoftSeventeenStops` holds. */
  function DrawSoftSeventeen(hand: Hand, deck: Deck, pos: nat): (r: Drawn)
    ensures r.pos >= pos && r.hand == Extend(hand, deck, pos, r.pos - pos)
    ensures SoftSeventeenStops(r.hand)
    decreases 16 - HardSum(hand)
  {
    if SoftSeventeenStops(hand) then
      ExtendStep(hand, deck, pos, 0);
      Drawn(hand, pos)
    else
      HardSumAppend(hand, deck(pos));
      var r := DrawSoftSeventeen(hand + [deck(pos)], deck, pos + 1);
      ExtendFirst(hand, deck, pos, r.pos - pos - 1);
      r
  }

  /** The standard dealer stops at the FIRST stopping hand: no shorter
      extension of the starting hand was worth 17 or more. */
  lemma {:induction false} StandardStopsAtFirstChance(hand: Hand, deck: Deck, pos: nat)
    ensures var r := DrawStandard(hand, deck, pos);
      forall k :: 0 <= k < r.pos - pos ==> !StandardStops(Extend(hand, deck, pos, k))
    decreases 17 - HardSum(hand)
  {
    var r := DrawStandard(hand, deck, pos);
    if HandValue(hand) <= 16 {
      HardSumAppend(hand, deck(pos));
      var next := DrawStandard(hand + [deck(pos)], deck, pos + 1);
      assert r == next;
      StandardStopsAtFirstChance(hand + [deck(pos)], deck, pos + 1);
      ExtensionsFromNext(h => !StandardStops(h), hand, hand + [deck(pos)], deck, pos, pos + 1, next.pos - pos - 1);
    }
  }

  /** The `hits_soft_17` dealer stops at the first stopping hand too. */
  lemma {:induction false} SoftSeventeenStopsAtFirstChance(hand: Hand, deck: Deck, pos: nat)
    ensures var r := DrawSoftSeventeen(hand, deck, pos);
      forall k :: 0 <= k < r.pos - pos ==> !SoftSeventeenStops(Extend(hand, deck, pos, k))
    decreases 16 - HardSum(hand)
  {
    var r := DrawSoftSeventeen(hand, deck, pos);
    if !SoftSeventeenStops(hand) {
      HardSumAppend(hand, deck(pos));
      var next := DrawSoftSeventeen(hand + [deck(pos)], deck, pos + 1);
      assert r == next;
      SoftSeventeenStopsAtFirstChance(hand + [deck(pos)], deck, pos + 1);
      ExtensionsFromNext(h => !SoftSeventeenStops(h), hand, hand + [deck(pos)], deck, pos, pos + 1, next.pos - pos - 1);
    }
  }

  /** What `dealers_response` returns, with the stream position after its draws. */
  datatype DealerResult = DealerResult(hand: Hand, bust: bool, pos: nat)

  /** `dealers_response`: run the loop of the selected rule, then report a bust
      exactly when the final hand is worth more than 21. A hand that already
      meets the rule's stopping condition receives no card. */
  function DealersResponse(hand: Hand, hitsSoft17: bool, deck: Deck, pos: nat): (r: DealerResult)
    ensures r.pos >= pos && r.hand == Extend(hand, deck, pos, r.pos - pos)
    ensures r.bust <==> HandValue(r.hand) > 21
    ensures !hitsSoft17 ==> HandValue(r.hand) >= 17
    ensures hitsSoft17 ==> SoftSeventeenStops(r.hand)
    ensures (if hitsSoft17 then SoftSeventeenStops(hand) else StandardStops(hand)) ==> r.hand == hand && r.pos == pos
  {
    var d := if hitsSoft17 then DrawSoftSeventeen(hand, deck, pos) else DrawStandard(hand, deck, pos);
    DealerResult(d.hand, HandValue(d.hand) > 21, d.pos)
  }

  /** A hard hand worth exactly 16. */
  predicate HardSixteen(hand: Hand)
  {
    !IsSoft(hand) && HandValue(hand) == 16
  }

  /** The two rules take different decisions on exactly one kind of hand: a
      hard 16, on which the standard dealer draws and the `hits_soft_17`
      dealer stands. In particular both stand on soft 17. */
  lemma RulesDifferOnlyOnHardSixteen(hand: Hand)
    ensures StandardStops(hand) != SoftSeventeenStops(hand) <==> HardSixteen(hand)
    ensures HardSixteen(hand) ==> SoftSeventeenStops(hand) && !StandardStops(hand)
    ensures IsSoft(hand) && HandValue(hand) == 17 ==> StandardStops(hand) && SoftSeventeenStops(hand)
  {
  }

  /** When the standard dealer's run never passes through a hard 16, the
      `hits_soft_17` dealer draws exactly the same cards. */
  lemma {:induction false} SameRunWithoutHardSixteen(hand: Hand, deck: Deck, pos: nat)
    requires forall k :: 0 <= k <= DrawStandard(hand, deck, pos).pos - pos ==> !HardSixteen(Extend(hand, deck, pos, k))
    ensures DrawSoftSeventeen(hand, deck, pos) == DrawStandard(hand, deck, pos)
    decreases 17 - HardSum(hand)
  {
    ExtendStep(hand, deck, pos, 0);
    assert !HardSixteen(Extend(hand, deck, pos, 0));
    if HandValue(hand) <= 16 {
      HardSumAppend(hand, deck(pos));
      var next := DrawStandard(hand + [deck(pos)], deck, pos + 1);
      assert DrawStandard(hand, deck, pos) == next;
      ExtensionsOfNext(h => !HardSixteen(h), hand, hand + [deck(pos)], deck, pos, pos + 1, next.pos - (pos + 1));
      SameRunWithoutHardSixteen(hand + [deck(pos)], deck, pos + 1);
    }
  }

  /** Worked decisions: both dealers stand on soft 17 (Ace, Six); on hard 16
      (Ten, Six) the `hits_soft_17` dealer stands while the standard dealer
      draws at least one card. */
  lemma DealerExamples(deck: Deck, pos: nat)
    ensures DealersResponse([Ace, Six], false, deck, pos) == DealerResult([Ace, Six], false, pos)
    ensures DealersResponse([Ace, Six], true, deck, pos) == DealerResult([Ace, Six], false, pos)
    ensures DealersResponse([Ten, Six], true, deck, pos) == DealerResult([Ten, Six], false, pos)
    ensures DealersResponse([Ten, Six], false, deck, pos).pos > pos
  {
    ValuationExamples();
    assert Extend([Ten, Six], deck, pos, 0) == [Ten, Six] by {
      ExtendStep([Ten, Six], deck, pos, 0);
    }
  }
}

=== FILE: player.dfy ===
/** The player's reaction to one strategy code: `players_response`. */
module Player {
  import opened Cards

  /** The five values `players_response` returns: the new bet and its flags. */
  datatype Response = Response(bet: real, surrendered: bool, stand: bool, blackjack: bool, double: bool)

  /** The factor a response applies to the bet it was given: one half on a
      surrender, three halves on a blackjack, two on a double, otherwise one. */
  function BetFactor(r: Response): real
  {
    if r.surrendered then 0.5
    else if r.blackjack then 1.5
    else if r.double then 2.0
    else 1.0
  }

  /** `players_response`: "R" surrenders at any hand size, "S" stands (a
      blackjack when the hand is two cards worth 21), "D" doubles on a
      two-card hand, and every other code (including "D" on a longer hand)
      leaves the bet alone with no flag set, which the round treats as a hit. */
  function PlayersResponse(option: string, hand: Hand, bet: real): (r: Response)
    ensures r.surrendered <==> option == "R"
    ensures r.stand <==> option == "S"
    ensures r.blackjack <==> option == "S" && |hand| == 2 && HandValue(hand) == 21
    ensures r.double <==> option == "D" && |hand| == 2
    ensures r.bet == bet * BetFactor(r)
  {
    if option == "R" then
      Response(bet / 2.0, true, false, false, false)
    else if option == "S" then
      if HandValue(hand) == 21 && |hand| == 2 then Response(bet * 1.5, false, true, true, false)
      else Response(bet, false, true, false, false)
    else if option == "D" && |hand| == 2 then
      Response(bet * 2.0, false, false, false, true)
    else
      Response(bet, false, false, false, false)
  }

  /** The flags of a response are consistent: a blackjack is a stand, at most
      one of surrender, stand and double is set, and the bet is adjusted at
      most once, by one of the four factors. */
  lemma ResponseFlagsConsistent(option: string, hand: Hand, bet: real)
    ensures var r := PlayersResponse(option, hand, bet);
      && (r.blackjack ==> r.stand)
      && !(r.surrendered && r.stand) && !(r.surrendered && r.double) && !(r.stand && r.double)
      && (r.bet == bet / 2.0 || r.bet == bet || r.bet == bet * 1.5 || r.bet == bet * 2.0)
      && (!r.surrendered && !r.blackjack && !r.double ==> r.bet == bet)
  {
  }

  /** "D" on a hand of three or more cards acts exactly like a hit, and "R"
      halves the bet whatever the hand size. */
  lemma IllegalCodesRaiseNoError(hand: Hand, bet: real)
    requires |hand| != 2
    ensures PlayersResponse("D", hand, bet) == PlayersResponse("H", hand, bet)
    ensures PlayersResponse("D", hand, bet) == Response(bet, false, false, false, false)
    ensures PlayersResponse("R", hand, bet) == Response(bet / 2.0, true, false, false, false)
  {
  }
}

=== FILE: round.dfy ===
/** One round of blackjack: `play_blackjack`, with the card source and the
    strategy tables passed in. */
module Round {
  import opened Wrappers
  import opened Cards
  import opened Player
  import opened Dealer

  /** A strategy table: the action code for a player total against the
      dealer's upcard, or nothing when the table has no such entry. */
  type Table = (int, Card) -> Option<string>

  /** The four tables: hard and soft hands, against a standard dealer and
      against a dealer playing the `hits_soft_17` rule. */
  datatype Tables = Tables(hard: Table, soft: Table, hardHitsSoft17: Table, softHitsSoft17: Table)

  /** The table entry the player consults: the rule picks the table pair and
      the softness of the hand picks the table. */
  function Lookup(t: Tables, hitsSoft17: bool, soft: bool, total: int, upcard: Card): Option<string>
  {
    if !hitsSoft17 then
      if soft then t.soft(total, upcard) else t.hard(total, upcard)
    else
      if soft then t.softHitsSoft17(total, upcard) else t.hardHitsSoft17(total, upcard)
  }

  /** The code the player looks up for hand `h`: the entry for the hand's
      softness and value against the upcard. */
  function Decision(t: Tables, hitsSoft17: bool, upcard: Card, h: Hand): Option<string>
  {
    Lookup(t, hitsSoft17, IsSoft(h), HandValue(h), upcard)
  }

  /** A code on which `PlayersResponse` neither stands, surrenders nor
      doubles on hand `h`, so the player draws a card and decides again. */
  predicate IsHit(code: string, h: Hand)
  {
    code != "R" && code != "S" && !(code == "D" && |h| == 2)
  }

  /** The table gives a hitting code for hand `h`. */
  predicate HitsAt(t: Tables, hitsSoft17: bool, upcard: Card, h: Hand)
  {
    Decision(t, hitsSoft17, upcard, h).Some? && IsHit(Decision(t, hitsSoft17, upcard, h).value, h)
  }

  /** None of the hands the player holds before the n-th draw from `pos` is
      bust: the hand itself and its extensions by fewer than n cards, read
      from the front, the way the loop grows the hand. */
  predicate NoBustBefore(hand: Hand, deck: Deck, pos: nat, n: nat)
    decreases n
  {
    n == 0 || (HandValue(hand) <= 21 && NoBustBefore(hand + [deck(pos)], deck, pos + 1, n - 1))
  }

  /** `NoBustBefore` says exactly that every extension of the hand by fewer
      than n cards is worth at most 21. */
  lemma NoBustBeforeEveryExtension(hand: Hand, deck: Deck, pos: nat, n: nat)
    ensures NoBustBefore(hand, deck, pos, n) <==> forall k :: 0 <= k < n ==> HandValue(Extend(hand, deck, pos, k)) <= 21
  {
    if NoBustBefore(hand, deck, pos, n) {
      NoBustBeforeAll(hand, deck, pos, n);
    }
    if forall k :: 0 <= k < n ==> HandValue(Extend(hand, deck, pos, k)) <= 21 {
      AllNoBustBefore(hand, deck, pos, n);
    }
  }

  /** The recursive form gives the quantified one. */
  lemma {:induction false} NoBustBeforeAll(hand: Hand, deck: Deck, pos: nat, n: nat)
    requires NoBustBefore(hand, deck, pos, n)
    ensures forall k :: 0 <= k < n ==> HandValue(Extend(hand, deck, pos, k)) <= 21
    decreases n
  {
    if n > 0 {
      var drawn := hand + [deck(pos)];
      NoBustBeforeAll(drawn, deck, pos + 1, n - 1);
      ExtensionsFromNext(h => HandValue(h) <= 21, hand, drawn, deck, pos, pos + 1, n - 1);
    }
  }

  /** The quantified form gives the recursive one. */
  lemma {:induction false} AllNoBustBefore(hand: Hand, deck: Deck, pos: nat, n: nat)
    requires forall k :: 0 <= k < n ==> HandValue(Extend(hand, deck, pos, k)) <= 21
    ensures NoBustBefore(hand, deck, pos, n)
    decreases n
  {
    if n > 0 {
      var drawn := hand + [deck(pos)];
      ExtendStep(hand, deck, pos, 0);
      assert HandValue(Extend(hand, deck, pos, 0)) <= 21;
      if n > 1 {
        ExtensionsOfNext(h => HandValue(h) <= 21, hand, drawn, deck, pos, pos + 1, n - 2);
      }
      AllNoBustBefore(drawn, deck, pos + 1, n - 1);
    }
  }

  /** The loop that started on `hand` at stream position `pos` and ended in
      `e` kept to its guard and took every decision from the table: no hand
      before the last was bust, so a bust ends the loop at once, and the
      decisions are those `DecidedByTable` describes. */
  predicate FollowsTable(t: Tables, hitsSoft17: bool, upcard: Card, hand: Hand, deck: Deck, pos: nat, e: PlayerEnd)
  {
    && e.pos >= pos
    && NoBustBefore(hand, deck, pos, e.pos - pos)
    && DecidedByTable(t, hitsSoft17, upcard, hand, deck, pos, e)
  }

  /** With n the number of cards the loop drew and H(k) the hand after k of
      them: every decision before the last was a hit, a double was decided on
      the two-card hand just before the final card, and a loop that ended
      neither bust nor doubled ended on an R (a surrender) or an S (a stand)
      for H(n). */
  predicate DecidedByTable(t: Tables, hitsSoft17: bool, upcard: Card, hand: Hand, deck: Deck, pos: nat, e: PlayerEnd)
  {
    && e.pos >= pos
    && HitsBeforeLast(t, hitsSoft17, upcard, hand, deck, pos, e)
    && DoubledOnTable(t, hitsSoft17, upcard, hand, deck, pos, e)
    && StoppedOnTable(t, hitsSoft17, upcard, hand, deck, pos, e)
  }

  /** Every decision before the last draw (or before the double) was a hit. */
  predicate HitsBeforeLast(t: Tables, hitsSoft17: bool, upcard: Card, hand: Hand, deck: Deck, pos: nat, e: PlayerEnd)
    requires e.pos >= pos
  {
    var n := e.pos - pos;
    forall k :: 0 <= k < n && !(e.doubled && k == n - 1) ==> HitsAt(t, hitsSoft17, upcard, Extend(hand, deck, pos, k))
  }

  /** A double was decided on the two-card hand just before the final card. */
  predicate DoubledOnTable(t: Tables, hitsSoft17: bool, upcard: Card, hand: Hand, deck: Deck, pos: nat, e: PlayerEnd)
    requires e.pos >= pos
  {
    var n := e.pos - pos;
    e.doubled ==>
      && n >= 1
      && Decision(t, hitsSoft17, upcard, Extend(hand, deck, pos, n - 1)) == Some("D")
      && |Extend(hand, deck, pos, n - 1)| == 2
  }

  /** A loop that ended neither bust nor doubled ended on an R (a surrender)
      or an S (a stand) for the final hand. */
  predicate StoppedOnTable(t: Tables, hitsSoft17: bool, upcard: Card, hand: Hand, deck: Deck, pos: nat, e: PlayerEnd)
    requires e.pos >= pos
  {
    !e.bust && !e.doubled ==>
      var last := Decision(t, hitsSoft17, upcard, Extend(hand, deck, pos, e.pos - pos));
      if e.surrendered then last == Some("R") else last == Some("S")
  }

  /** The lookup failure that aborts a round (a `KeyError` in the tables). */
  datatype RoundError = MissingStrategyEntry(hitsSoft17: bool, soft: bool, total: int, upcard: Card)

  /** The player's state when the decision loop ends: the final hand and bet,
      the loop flags, the flags of the last response, and the stream position. */
  datatype PlayerEnd = PlayerEnd(hand: Hand, bet: real, bust: bool, surrendered: bool,
                                 blackjack: bool, doubled: bool, pos: nat)

  /** The rule's tables hold every entry a round can look up: hard totals 4
      to 21 and soft totals 12 to 21, against each upcard. A hand of two or
      more cards shows no other softness and value (`ValueOfTwoOrMoreCards`). */
  ghost predicate Covers(t: Tables, hitsSoft17: bool)
  {
    forall soft, total, upcard :: (if soft then 12 else 4) <= total <= 21 ==> Lookup(t, hitsSoft17, soft, total, upcard).Some?
  }

  /** The player's decision loop, entered with a hand that is not bust: look
      up the code for the hand's softness and value against the upcard and
      apply `PlayersResponse` to it. */
  function PlayerTurn(t: Tables, hitsSoft17: bool, upcard: Card, hand: Hand, bet: real,
                      deck: Deck, pos: nat): (r: Result<PlayerEnd, RoundError>)
    requires HandValue(hand) <= 21
    ensures r.Success? ==>
      var e := r.value;
      && e.pos >= pos && e.hand == Extend(hand, deck, pos, e.pos - pos)
      && (e.bust <==> HandValue(e.hand) > 21)
    ensures r.Failure? ==>
      && r.error.hitsSoft17 == hitsSoft17 && r.error.upcard == upcard
      && HardSum(hand) <= r.error.total <= 21
      && Lookup(t, hitsSoft17, r.error.soft, r.error.total, upcard).None?
    decreases 21 - HardSum(hand), 2
  {
    match Decision(t, hitsSoft17, upcard, hand)
    case None => Failure(MissingStrategyEntry(hitsSoft17, IsSoft(hand), HandValue(hand), upcard))
    case Some(code) => ApplyResponse(t, hitsSoft17, upcard, hand, PlayersResponse(code, hand, bet), deck, pos)
  }

  /** The rest of one pass of the loop after the response `resp`: a stand or
      a surrender ends the loop with no card; any other response draws. */
  function ApplyResponse(t: Tables, hitsSoft17: bool, upcard: Card, hand: Hand, resp: Response,
                         deck: Deck, pos: nat): (r: Result<PlayerEnd, RoundError>)
    requires HandValue(hand) <= 21
    ensures r.Success? ==>
      var e := r.value;
      && e.pos >= pos && e.hand == Extend(hand, deck, pos, e.pos - pos)
      && (e.bust <==> HandValue(e.hand) > 21)
    ensures r.Failure? ==>
      && r.error.hitsSoft17 == hitsSoft17 && r.error.upcard == upcard
      && HardSum(hand) < r.error.total <= 21
      && Lookup(t, hitsSoft17, r.error.soft, r.error.total, upcard).None?
    decreases 21 - HardSum(hand), 1
  {
    if resp.stand || resp.surrendered then
      ExtendStep(hand, deck, pos, 0);
      Success(PlayerEnd(hand, resp.bet, false, resp.surrendered, resp.blackjack, resp.double, pos))
    else
      DrawAfter(t, hitsSoft17, upcard, hand, resp, deck, pos)
  }

  /** The draw of a pass that did not stand or surrender: a hand worth more
      than 21 ends the loop as a bust, a double ends it as a stand, and
      anything else goes round the loop again. The all-Aces-as-1 sum rises
      with every card, so the loop ends. */
  function DrawAfter(t: Tables, hitsSoft17: bool, upcard: Card, hand: Hand, resp: Response,
                     deck: Deck, pos: nat): (r: Result<PlayerEnd, RoundError>)
    requires HandValue(hand) <= 21
    ensures r.Success? ==>
      var e := r.value;
      && e.pos > pos && e.hand == Extend(hand, deck, pos, e.pos - pos)
      && (e.bust <==> HandValue(e.hand) > 21)
    ensures r.Failure? ==>
      && r.error.hitsSoft17 == hitsSoft17 && r.error.upcard == upcard
      && HardSum(hand) < r.error.total <= 21
      && Lookup(t, hitsSoft17, r.error.soft, r.error.total, upcard).None?
    decreases 21 - HardSum(hand), 0
  {
    var drawn := hand + [deck(pos)];
    ExtendStep(hand, deck, pos, 0);
    if HandValue(drawn) > 21 then
      Success(PlayerEnd(drawn, resp.bet, true, false, false, resp.double, pos + 1))
    else if resp.double then
      Success(PlayerEnd(drawn, resp.bet, false, false, false, true, pos + 1))
    else
      HardSumAppend(hand, deck(pos));
      var r := PlayerTurn(t, hitsSoft17, upcard, drawn, resp.bet, deck, pos + 1);
      if r.Success? then
        ExtendFirst(hand, deck, pos, r.value.pos - pos - 1);
        r
      else r
  }

  /** What the bet can be when the player's loop ends, for a loop that
      started with bet `bet`. */
  predicate BetAdjustedOnce(e: PlayerEnd, bet: real)
  {
    && (e.surrendered ==> e.bet == bet / 2.0 && !e.bust && !e.blackjack && !e.doubled)
    && (e.blackjack ==> e.bet == bet * 1.5 && |e.hand| == 2 && HandValue(e.hand) == 21 && !e.doubled)
    && (e.doubled ==> e.bet == bet * 2.0 && |e.hand| == 3)
    && (!e.surrendered && !e.blackjack && !e.doubled ==> e.bet == bet)
    && (!e.bust && !e.surrendered && !e.doubled && |e.hand| == 2 && HandValue(e.hand) == 21 ==> e.blackjack)
  }

  /** The bet changes at most once in the player's loop, and the change ends
      the loop: a surrender halves it and never busts, a blackjack multiplies
      it by 1.5 on a two-card 21, a double doubles it and leaves a three-card
      hand, and otherwise the bet is unchanged. */
  lemma {:induction false} BetAdjustedAtMostOnce(t: Tables, hitsSoft17: bool, upcard: Card, hand: Hand, bet: real,
                                                 deck: Deck, pos: nat)
    requires HandValue(hand) <= 21
    ensures var r := PlayerTurn(t, hitsSoft17, upcard, hand, bet, deck, pos);
      r.Success? ==> BetAdjustedOnce(r.value, bet)
    decreases 21 - HardSum(hand), 2
  {
    match Lookup(t, hitsSoft17, IsSoft(hand), HandValue(hand), upcard)
    case None =>
    case Some(code) =>
      ResponseAdjustsBetOnce(t, hitsSoft17, upcard, hand, code, bet, deck, pos);
  }

  /** The same for the rest of one pass, after the response to `code`. */
  lemma {:induction false} ResponseAdjustsBetOnce(t: Tables, hitsSoft17: bool, upcard: Card, hand: Hand,
                                                  code: string, bet: real, deck: Deck, pos: nat)
    requires HandValue(hand) <= 21
    ensures var resp := PlayersResponse(code, hand, bet);
      var r := ApplyResponse(t, hitsSoft17, upcard, hand, resp, deck, pos);
      && (r.Success? ==> BetAdjustedOnce(r.value, bet))
      && (r.Success? ==> (r.value.pos == pos <==> resp.stand || resp.surrendered))
      && (r.Success? && resp.double ==> r.value.pos == pos + 1)
    decreases 21 - HardSum(hand), 1
  {
    var resp := PlayersResponse(code, hand, bet);
    if !resp.stand && !resp.surrendered {
      DrawAdjustsBetOnce(t, hitsSoft17, upcard, hand, code, bet, deck, pos);
    }
  }

  /** The same for the draw of a pass, after a code that did not stand or
      surrender. */
  lemma {:induction false} DrawAdjustsBetOnce(t: Tables, hitsSoft17: bool, upcard: Card, hand: Hand,
                                              code: string, bet: real, deck: Deck, pos: nat)
    requires HandValue(hand) <= 21
    requires code != "R" && code != "S"
    ensures var resp := PlayersResponse(code, hand, bet);
      var r := DrawAfter(t, hitsSoft17, upcard, hand, resp, deck, pos);
      && (r.Success? ==> BetAdjustedOnce(r.value, bet))
      && (r.Success? && resp.double ==> r.value.pos == pos + 1)
    decreases 21 - HardSum(hand), 0
  {
    var resp := PlayersResponse(code, hand, bet);
    var drawn := hand + [deck(pos)];
    var r := DrawAfter(t, hitsSoft17, upcard, hand, resp, deck, pos);
    if HandValue(drawn) > 21 || resp.double {
      assert r == Success(PlayerEnd(drawn, resp.bet, HandValue(drawn) > 21, false, false, resp.double, pos + 1));
    } else {
      HardSumAppend(hand, deck(pos));
      assert resp.bet == bet;
      BetAdjustedAtMostOnce(t, hitsSoft17, upcard, drawn, bet, deck, pos + 1);
      assert r == PlayerTurn(t, hitsSoft17, upcard, drawn, bet, deck, pos + 1);
    }
  }

  /** The player's loop acts on the strategy table: every decision before
      the last is the table's hitting code for the current hand, and the loop
      ends on the table's code, a surrender on R, a stand on S, a double on
      D for a two-card hand, or a bust after a hit. Started on two cards, a
      double draws exactly one card. */
  lemma {:induction false} PlayerFollowsTable(t: Tables, hitsSoft17: bool, upcard: Card, hand: Hand, bet: real,
                                              deck: Deck, pos: nat)
    requires HandValue(hand) <= 21
    ensures var r := PlayerTurn(t, hitsSoft17, upcard, hand, bet, deck, pos);
      r.Success? ==> FollowsTable(t, hitsSoft17, upcard, hand, deck, pos, r.value)
    ensures var r := PlayerTurn(t, hitsSoft17, upcard, hand, bet, deck, pos);
      r.Success? && r.value.doubled && |hand| == 2 ==> r.value.pos == pos + 1
    decreases 21 - HardSum(hand), 2
  {
    match Decision(t, hitsSoft17, upcard, hand)
    case None =>
    case Some(code) =>
      ResponseFollowsTable(t, hitsSoft17, upcard, hand, code, bet, deck, pos);
  }

  /** A bust ends the player's loop at once (the `while not bust` guard):
      every hand the loop held before its final one is worth at most 21, so
      the table is never consulted and no card is drawn on a bust hand. */
  lemma StopsAtFirstBust(t: Tables, hitsSoft17: bool, upcard: Card, hand: Hand, bet: real, deck: Deck, pos: nat)
    requires HandValue(hand) <= 21
    ensures var r := PlayerTurn(t, hitsSoft17, upcard, hand, bet, deck, pos);
      r.Success? ==> forall k :: 0 <= k < r.value.pos - pos ==> HandValue(Extend(hand, deck, pos, k)) <= 21
  {
    PlayerFollowsTable(t, hitsSoft17, upcard, hand, bet, deck, pos);
    var r := PlayerTurn(t, hitsSoft17, upcard, hand, bet, deck, pos);
    if r.Success? {
      FollowsTableNeverBust(t, hitsSoft17, upcard, hand, deck, pos, r.value);
    }
  }

  /** A loop that follows the table held no bust hand before its last. */
  lemma FollowsTableNeverBust(t: Tables, hitsSoft17: bool, upcard: Card, hand: Hand, deck: Deck, pos: nat, e: PlayerEnd)
    requires FollowsTable(t, hitsSoft17, upcard, hand, deck, pos, e)
    ensures forall k :: 0 <= k < e.pos - pos ==> HandValue(Extend(hand, deck, pos, k)) <= 21
  {
    NoBustBeforeAll(hand, deck, pos, e.pos - pos);
  }

  /** The same for the rest of one pass, after the table gave `code`. */
  lemma {:induction false} ResponseFollowsTable(t: Tables, hitsSoft17: bool, upcard: Card, hand: Hand,
                                                code: string, bet: real, deck: Deck, pos: nat)
    requires HandValue(hand) <= 21
    requires Decision(t, hitsSoft17, upcard, hand) == Some(code)
    ensures var r := ApplyResponse(t, hitsSoft17, upcard, hand, PlayersResponse(code, hand, bet), deck, pos);
      r.Success? ==> FollowsTable(t, hitsSoft17, upcard, hand, deck, pos, r.value)
    decreases 21 - HardSum(hand), 1
  {
    var resp := PlayersResponse(code, hand, bet);
    if resp.stand || resp.surrendered {
      ExtendStep(hand, deck, pos, 0);
    } else {
      DrawFollowsTable(t, hitsSoft17, upcard, hand, code, bet, deck, pos);
    }
  }

  /** The same for the draw of a pass, after a code that did not stand or
      surrender. */
  lemma {:induction false} DrawFollowsTable(t: Tables, hitsSoft17: bool, upcard: Card, hand: Hand,
                                            code: string, bet: real, deck: Deck, pos: nat)
    requires HandValue(hand) <= 21
    requires Decision(t, hitsSoft17, upcard, hand) == Some(code)
    requires code != "R" && code != "S"
    ensures var r := DrawAfter(t, hitsSoft17, upcard, hand, PlayersResponse(code, hand, bet), deck, pos);
      r.Success? ==> FollowsTable(t, hitsSoft17, upcard, hand, deck, pos, r.value)
    decreases 21 - HardSum(hand), 0
  {
    var resp := PlayersResponse(code, hand, bet);
    var drawn := hand + [deck(pos)];
    var r := DrawAfter(t, hitsSoft17, upcard, hand, resp, deck, pos);
    if HandValue(drawn) > 21 || resp.double {
      var e := PlayerEnd(drawn, resp.bet, HandValue(drawn) > 21, false, false, resp.double, pos + 1);
      assert r == Success(e);
      if !resp.double {
        assert HitsAt(t, hitsSoft17, upcard, hand);
      }
      FollowsTableOneCard(t, hitsSoft17, upcard, hand, deck, pos, e);
    } else {
      HardSumAppend(hand, deck(pos));
      PlayerFollowsTable(t, hitsSoft17, upcard, drawn, resp.bet, deck, pos + 1);
      var rest := PlayerTurn(t, hitsSoft17, upcard, drawn, resp.bet, deck, pos + 1);
      assert r == rest;
      if rest.Success? {
        FollowsTableFromNext(t, hitsSoft17, upcard, hand, drawn, deck, pos, pos + 1, rest.value);
      }
    }
  }

  /** A loop that ended on the first card it drew, as a bust after a hit or
      after a double on two cards, followed the table. */
  lemma FollowsTableOneCard(t: Tables, hitsSoft17: bool, upcard: Card, hand: Hand, deck: Deck, pos: nat, e: PlayerEnd)
    requires HandValue(hand) <= 21
    requires e.pos == pos + 1 && (e.bust || e.doubled)
    requires e.doubled ==> Decision(t, hitsSoft17, upcard, hand) == Some("D") && |hand| == 2
    requires !e.doubled ==> HitsAt(t, hitsSoft17, upcard, hand)
    ensures FollowsTable(t, hitsSoft17, upcard, hand, deck, pos, e)
  {
    ExtendStep(hand, deck, pos, 0);
  }

  /** A loop that follows the table from the hand with the next card drawn,
      entered after a hitting code, follows it from the hand itself. */
  lemma FollowsTableFromNext(t: Tables, hitsSoft17: bool, upcard: Card, hand: Hand, drawn: Hand,
                             deck: Deck, pos: nat, next: nat, e: PlayerEnd)
    requires drawn == hand + [deck(pos)] && next == pos + 1
    requires HandValue(hand) <= 21 && HitsAt(t, hitsSoft17, upcard, hand)
    requires FollowsTable(t, hitsSoft17, upcard, drawn, deck, next, e)
    ensures FollowsTable(t, hitsSoft17, upcard, hand, deck, pos, e)
  {
    assert e.pos - pos == (e.pos - next) + 1;
    assert NoBustBefore(hand, deck, pos, e.pos - pos);
    DecidedFromNext(t, hitsSoft17, upcard, hand, drawn, deck, pos, next, e);
  }

  /** The decision part of the same step. */
  lemma DecidedFromNext(t: Tables, hitsSoft17: bool, upcard: Card, hand: Hand, drawn: Hand,
                        deck: Deck, pos: nat, next: nat, e: PlayerEnd)
    requires drawn == hand + [deck(pos)] && next == pos + 1
    requires HitsAt(t, hitsSoft17, upcard, hand)
    requires DecidedByTable(t, hitsSoft17, upcard, drawn, deck, next, e)
    ensures DecidedByTable(t, hitsSoft17, upcard, hand, deck, pos, e)
  {
    HitsFromNext(t, hitsSoft17, upcard, hand, drawn, deck, pos, next, e);
    var n := e.pos - pos;
    if e.doubled {
      ExtendFirst(hand, deck, pos, n - 2);
    }
    ExtendFirst(hand, deck, pos, n - 1);
  }

  /** The hits part of the same step: the hit on `hand` comes first. */
  lemma HitsFromNext(t: Tables, hitsSoft17: bool, upcard: Card, hand: Hand, drawn: Hand,
                     deck: Deck, pos: nat, next: nat, e: PlayerEnd)
    requires drawn == hand + [deck(pos)] && next == pos + 1 && e.pos >= next
    requires HitsAt(t, hitsSoft17, upcard, hand)
    requires HitsBeforeLast(t, hitsSoft17, upcard, drawn, deck, next, e)
    requires e.doubled ==> e.pos - next >= 1
    ensures HitsBeforeLast(t, hitsSoft17, upcard, hand, deck, pos, e)
  {
    var n := e.pos - pos;
    ExtendStep(hand, deck, pos, 0);
    forall k | 0 <= k < n && !(e.doubled && k == n - 1)
      ensures HitsAt(t, hitsSoft17, upcard, Extend(hand, deck, pos, k))
    {
      if k > 0 {
        ExtendFirst(hand, deck, pos, k - 1);
      }
    }
  }

  /** The loop hit on each of the first n hands it held. */
  predicate HitsBefore(t: Tables, hitsSoft17: bool, upcard: Card, hand: Hand, deck: Deck, pos: nat, n: nat)
  {
    forall k :: 0 <= k < n ==> HitsAt(t, hitsSoft17, upcard, Extend(hand, deck, pos, k))
  }

  /** `err` is the `KeyError` of the lookup for hand `h`: the table has no
      entry for the hand's softness and value against the upcard, and the
      error names exactly that entry. */
  predicate MissingEntryFor(t: Tables, hitsSoft17: bool, upcard: Card, h: Hand, err: RoundError)
  {
    && Decision(t, hitsSoft17, upcard, h).None?
    && err == MissingStrategyEntry(hitsSoft17, IsSoft(h), HandValue(h), upcard)
  }

  /** The loop failed on the n-th hand it held from `hand`: that hand and
      every earlier one was not bust, the table gave a hitting code for each
      earlier one, and the lookup for that hand raised `err`. */
  predicate FailedAt(t: Tables, hitsSoft17: bool, upcard: Card, hand: Hand, deck: Deck, pos: nat, n: nat, err: RoundError)
  {
    && NoBustBefore(hand, deck, pos, n + 1)
    && HitsBefore(t, hitsSoft17, upcard, hand, deck, pos, n)
    && MissingEntryFor(t, hitsSoft17, upcard, Extend(hand, deck, pos, n), err)
  }

  /** A failing player's loop fails on the table: it hit on every hand
      before some hand, none of them bust, and the error is the missing
      entry for that hand's own softness and value. */
  lemma {:induction false} PlayerFailsOnTable(t: Tables, hitsSoft17: bool, upcard: Card, hand: Hand, bet: real,
                                              deck: Deck, pos: nat)
    requires HandValue(hand) <= 21
    ensures var r := PlayerTurn(t, hitsSoft17, upcard, hand, bet, deck, pos);
      r.Failure? ==> exists n :: FailedAt(t, hitsSoft17, upcard, hand, deck, pos, n, r.error)
    decreases 21 - HardSum(hand), 2
  {
    match Decision(t, hitsSoft17, upcard, hand)
    case None =>
      ExtendStep(hand, deck, pos, 0);
      var r := PlayerTurn(t, hitsSoft17, upcard, hand, bet, deck, pos);
      assert NoBustBefore(hand + [deck(pos)], deck, pos + 1, 0);
      assert FailedAt(t, hitsSoft17, upcard, hand, deck, pos, 0, r.error);
    case Some(code) =>
      ResponseFailsOnTable(t, hitsSoft17, upcard, hand, code, bet, deck, pos);
  }

  /** The same for the rest of one pass, after the table gave `code`. */
  lemma {:induction false} ResponseFailsOnTable(t: Tables, hitsSoft17: bool, upcard: Card, hand: Hand,
                                                code: string, bet: real, deck: Deck, pos: nat)
    requires HandValue(hand) <= 21
    requires Decision(t, hitsSoft17, upcard, hand) == Some(code)
    ensures var r := ApplyResponse(t, hitsSoft17, upcard, hand, PlayersResponse(code, hand, bet), deck, pos);
      r.Failure? ==> exists n :: FailedAt(t, hitsSoft17, upcard, hand, deck, pos, n, r.error)
    decreases 21 - HardSum(hand), 1
  {
    var resp := PlayersResponse(code, hand, bet);
    if !resp.stand && !resp.surrendered {
      DrawFailsOnTable(t, hitsSoft17, upcard, hand, code, bet, deck, pos);
    }
  }

  /** The same for the draw of a pass, after a code that did not stand or
      surrender. */
  lemma {:induction false} DrawFailsOnTable(t: Tables, hitsSoft17: bool, upcard: Card, hand: Hand,
                                            code: string, bet: real, deck: Deck, pos: nat)
    requires HandValue(hand) <= 21
    requires Decision(t, hitsSoft17, upcard, hand) == Some(code)
    requires code != "R" && code != "S"
    ensures var r := DrawAfter(t, hitsSoft17, upcard, hand, PlayersResponse(code, hand, bet), deck, pos);
      r.Failure? ==> exists n :: FailedAt(t, hitsSoft17, upcard, hand, deck, pos, n, r.error)
    decreases 21 - HardSum(hand), 0
  {
    var resp := PlayersResponse(code, hand, bet);
    var drawn := hand + [deck(pos)];
    if HandValue(drawn) <= 21 && !resp.double {
      HardSumAppend(hand, deck(pos));
      PlayerFailsOnTable(t, hitsSoft17, upcard, drawn, resp.bet, deck, pos + 1);
      var r := DrawAfter(t, hitsSoft17, upcard, hand, resp, deck, pos);
      var rest := PlayerTurn(t, hitsSoft17, upcard, drawn, resp.bet, deck, pos + 1);
      assert r.Failure? ==> r == rest;
      if r.Failure? {
        var n: nat :| FailedAt(t, hitsSoft17, upcard, drawn, deck, pos + 1, n, r.error);
        assert HitsAt(t, hitsSoft17, upcard, hand);
        FailedFromNext(t, hitsSoft17, upcard, hand, drawn, deck, pos, pos + 1, n, r.error);
      }
    }
  }

  /** A failure on the n-th hand held from the hand with the next card
      drawn, entered after a hitting code, is a failure on the (n + 1)-th
      hand held from the hand itself. */
  lemma FailedFromNext(t: Tables, hitsSoft17: bool, upcard: Card, hand: Hand, drawn: Hand,
                       deck: Deck, pos: nat, next: nat, n: nat, err: RoundError)
    requires drawn == hand + [deck(pos)] && next == pos + 1
    requires HandValue(hand) <= 21 && HitsAt(t, hitsSoft17, upcard, hand)
    requires FailedAt(t, hitsSoft17, upcard, drawn, deck, next, n, err)
    ensures FailedAt(t, hitsSoft17, upcard, hand, deck, pos, n + 1, err)
  {
    ExtendFirst(hand, deck, pos, n);
    ExtensionsFromNext(h => HitsAt(t, hitsSoft17, upcard, h), hand, drawn, deck, pos, next, n);
  }

  /** A player's loop started on two or more cards fails only on an entry
      that tables holding every reachable entry have: so it never fails on
      such tables. */
  lemma TurnFailsOnlyWithoutCover(t: Tables, hitsSoft17: bool, upcard: Card, hand: Hand, bet: real,
                                  deck: Deck, pos: nat)
    requires HandValue(hand) <= 21 && |hand| >= 2
    ensures PlayerTurn(t, hitsSoft17, upcard, hand, bet, deck, pos).Failure? ==> !Covers(t, hitsSoft17)
  {
    var r := PlayerTurn(t, hitsSoft17, upcard, hand, bet, deck, pos);
    if r.Failure? {
      PlayerFailsOnTable(t, hitsSoft17, upcard, hand, bet, deck, pos);
      var n: nat :| FailedAt(t, hitsSoft17, upcard, hand, deck, pos, n, r.error);
      var h := Extend(hand, deck, pos, n);
      NoBustBeforeAll(hand, deck, pos, n + 1);
      ValueOfTwoOrMoreCards(h);
      assert Lookup(t, hitsSoft17, IsSoft(h), HandValue(h), upcard).None?;
    }
  }

  /** A two-card hand is never bust: it is worth at most 21. */
  lemma TwoCardsNeverBust(a: Card, b: Card)
    ensures 2 <= HandValue([a, b]) <= 21
  {
    var h := [a, b];
    assert h[..1] == [a] && h[..1][..0] == [];
    assert NonAceSum([a]) == (if a == Ace then 0 else Pips(a));
    assert NonAceSum(h) == (if a == Ace then 0 else Pips(a)) + (if b == Ace then 0 else Pips(b));
    assert AceCount(h) == (if a == Ace then 1 else 0) + (if b == Ace then 1 else 0);
  }

  /** The result of a round: the signed win, the player's final state, the
      dealer's final hand, and the stream position after the round. */
  datatype RoundEnd = RoundEnd(win: real, player: PlayerEnd, dealer: Hand, pos: nat)

  /** The seven amounts a round can pay for an original bet `b`. */
  predicate IsRoundOutcome(win: real, b: real)
  {
    win == -2.0 * b || win == -b || win == -b / 2.0 || win == 0.0 || win == b || win == 1.5 * b || win == 2.0 * b
  }

  /** `play_blackjack`: deal the player two cards and the dealer one, run the
      player's loop, and, unless the player busted or surrendered (which loses
      the current bet with no dealer play), run the dealer's loop and compare:
      a dealer bust or a higher player total wins the current bet, a lower one
      loses it, and a tie pays nothing. */
  function PlayBlackjack(t: Tables, bet: real, hitsSoft17: bool, deck: Deck, pos: nat): (r: Result<RoundEnd, RoundError>)
    ensures r.Success? ==>
      var e := r.value;
      var p := e.player;
      && HandValue([deck(pos), deck(pos + 1)]) <= 21
      && PlayerTurn(t, hitsSoft17, deck(pos + 2), [deck(pos), deck(pos + 1)], bet, deck, pos + 3) == Success(p)
      && (!p.bust && !p.surrendered ==>
            DealersResponse([deck(pos + 2)], hitsSoft17, deck, p.pos) == DealerResult(e.dealer, HandValue(e.dealer) > 21, e.pos))
      && e.pos >= pos + 3 && |p.hand| >= 2 && |e.dealer| >= 1
      && p.hand[..2] == [deck(pos), deck(pos + 1)] && e.dealer[0] == deck(pos + 2)
      && (p.bust || p.surrendered ==> e.win == -p.bet && e.dealer == [deck(pos + 2)] && e.pos == p.pos)
      && (!p.bust && !p.surrendered ==>
            var pv := HandValue(p.hand);
            var dv := HandValue(e.dealer);
            && pv <= 21
            && (dv > 21 || pv > dv ==> e.win == p.bet)
            && (dv <= 21 && pv < dv ==> e.win == -p.bet)
            && (pv == dv ==> e.win == 0.0))
    ensures r.Failure? ==> !Covers(t, hitsSoft17)
  {
    var hand := [deck(pos), deck(pos + 1)];
    var upcard := deck(pos + 2);
    TwoCardsNeverBust(deck(pos), deck(pos + 1));
    HardSumAtLeastSize(hand);
    match PlayerTurn(t, hitsSoft17, upcard, hand, bet, deck, pos + 3)
    case Failure(err) =>
      TurnFailsOnlyWithoutCover(t, hitsSoft17, upcard, hand, bet, deck, pos + 3);
      Failure(err)
    case Success(p) =>
      assert p.hand[..2] == hand;
      if p.bust || p.surrendered then
        Success(RoundEnd(-p.bet, p, [upcard], p.pos))
      else
        var d := DealersResponse([upcard], hitsSoft17, deck, p.pos);
        var pv := HandValue(p.hand);
        var dv := HandValue(d.hand);
        var win := if pv > dv || d.bust then p.bet else if pv < dv then -p.bet else 0.0;
        Success(RoundEnd(win, p, d.hand, d.pos))
  }

  /** A round pays one of seven amounts of the original bet: a surrender
      loses half of it, a blackjack wins one and a half times it or ties, a
      double wins, ties or loses twice it, and any other round wins, ties or
      loses the bet itself. */
  lemma RoundPaysOneOfSevenAmounts(t: Tables, bet: real, hitsSoft17: bool, deck: Deck, pos: nat)
    ensures var r := PlayBlackjack(t, bet, hitsSoft17, deck, pos);
      r.Success? ==>
      var e := r.value;
      && IsRoundOutcome(e.win, bet)
      && (e.player.surrendered ==> e.win == -bet / 2.0)
      && (e.player.blackjack ==> e.win == 1.5 * bet || e.win == 0.0)
      && (e.player.doubled ==> e.win == 2.0 * bet || e.win == 0.0 || e.win == -2.0 * bet)
      && (!e.player.surrendered && |e.player.hand| == 2 && HandValue(e.player.hand) == 21 ==>
            e.player.blackjack && (e.win == 1.5 * bet || e.win == 0.0))
  {
    var hand := [deck(pos), deck(pos + 1)];
    var upcard := deck(pos + 2);
    TwoCardsNeverBust(deck(pos), deck(pos + 1));
    var r := PlayBlackjack(t, bet, hitsSoft17, deck, pos);
    var turn := PlayerTurn(t, hitsSoft17, upcard, hand, bet, deck, pos + 3);
    if turn.Success? {
      var p := turn.value;
      BetAdjustedAtMostOnce(t, hitsSoft17, upcard, hand, bet, deck, pos + 3);
      assert r.Success? && r.value.player == p;
      var win := r.value.win;
      if p.bust || p.surrendered {
        assert win == -p.bet;
      } else {
        var pv := HandValue(p.hand);
        var dv := HandValue(r.value.dealer);
        assert win == p.bet || win == -p.bet || win == 0.0;
        if p.blackjack {
          assert pv == 21;
          assert win != -p.bet || p.bet == 0.0;
        }
      }
    }
  }

  /** A scripted round: the player is dealt Ten and Nine, the dealer shows an
      Ace, and the strategy stands on hard 19 against an Ace. The dealer's
      next card is a Ten, so the standard dealer stands on 21 and the player
      loses the bet. */
  lemma ScriptedRoundLoses(t: Tables, bet: real, deck: Deck, pos: nat)
    requires deck(pos) == Ten && deck(pos + 1) == Nine && deck(pos + 2) == Ace && deck(pos + 3) == Ten
    requires t.hard(19, Ace) == Some("S")
    ensures PlayBlackjack(t, bet, false, deck, pos)
         == Success(RoundEnd(-bet, PlayerEnd([Ten, Nine], bet, false, false, false, false, pos + 3), [Ace, Ten], pos + 4))
  {
    var p := PlayerEnd([Ten, Nine], bet, false, false, false, false, pos + 3);
    ScriptedPlayerStands(t, bet, deck, pos + 3);
    ScriptedDealerDraws(deck, pos + 3);
    assert PlayerTurn(t, false, Ace, [Ten, Nine], bet, deck, pos + 3) == Success(p);
    assert DealersResponse([Ace], false, deck, pos + 3) == DealerResult([Ace, Ten], false, pos + 4);
  }

  /** The player's part of the scripted round: stand at once on hard 19. */
  lemma ScriptedPlayerStands(t: Tables, bet: real, deck: Deck, pos: nat)
    requires t.hard(19, Ace) == Some("S")
    ensures HandValue([Ten, Nine]) == 19
    ensures PlayerTurn(t, false, Ace, [Ten, Nine], bet, deck, pos)
         == Success(PlayerEnd([Ten, Nine], bet, false, false, false, false, pos))
  {
    ValuationExamples();
    assert Lookup(t, false, false, 19, Ace) == Some("S");
    assert PlayersResponse("S", [Ten, Nine], bet) == Response(bet, false, true, false, false);
  }

  /** The dealer's part of the scripted round: Ace then Ten, standing on 21. */
  lemma ScriptedDealerDraws(deck: Deck, pos: nat)
    requires deck(pos) == Ten
    ensures HandValue([Ace, Ten]) == 21
    ensures DealersResponse([Ace], false, deck, pos) == DealerResult([Ace, Ten], false, pos + 1)
  {
    ValuationExamples();
    assert [Ace] + [deck(pos)] == [Ace, Ten];
    assert DrawStandard([Ace, Ten], deck, pos + 1) == Drawn([Ace, Ten], pos + 1);
  }
}

=== FILE: simulation.dfy ===
/** The batch runner: the rounds played by the `Simulation` constructor and
    the statistics it accumulates over them. */
module Simulation {
  import opened Wrappers
  import opened Cards
  import opened Round

  /** Sum of a sequence of round results, added up from the first. */
  function Sum(s: seq<real>): real
  {
    if |s| == 0 then 0.0 else Sum(s[..|s| - 1]) + s[|s| - 1]
  }

  /** The outcome categories the constructor counts. */
  datatype Category = BlackjackWin | Win | Surrender | Tie | Loss

  /** The constructor's classification of one result by exact comparison with
      multiples of the bet, tried in order: 1.5 times the bet is a blackjack
      (and a win), the bet is a win, minus half the bet is a surrender, zero is
      a tie, and everything else is a loss. */
  function Classify(result: real, bet: real): Category
  {
    if result == 1.5 * bet then BlackjackWin
    else if result == bet then Win
    else if result == -0.5 * bet then Surrender
    else if result == 0.0 then Tie
    else Loss
  }

  /** With a non-zero bet each of the seven amounts a round can pay falls in
      the expected category, except that a doubled win (twice the bet) is
      counted as a loss, as are the single and doubled losses. */
  lemma ClassifyRoundOutcomes(b: real)
    requires b != 0.0
    ensures Classify(1.5 * b, b) == BlackjackWin
    ensures Classify(b, b) == Win
    ensures Classify(-b / 2.0, b) == Surrender
    ensures Classify(0.0, b) == Tie
    ensures Classify(-b, b) == Loss && Classify(-2.0 * b, b) == Loss
    ensures Classify(2.0 * b, b) == Loss
  {
  }

  /** How many results fall in category `c`. */
  function CountOf(results: seq<real>, bet: real, c: Category): nat
  {
    if |results| == 0 then 0
    else CountOf(results[..|results| - 1], bet, c) + (if Classify(results[|results| - 1], bet) == c then 1 else 0)
  }

  /** Every result falls in exactly one category. */
  lemma {:induction false} CountsPartition(results: seq<real>, bet: real)
    ensures CountOf(results, bet, BlackjackWin) + CountOf(results, bet, Win) + CountOf(results, bet, Surrender)
          + CountOf(results, bet, Tie) + CountOf(results, bet, Loss) == |results|
  {
    if |results| > 0 {
      CountsPartition(results[..|results| - 1], bet);
    }
  }

  /** The statistics the constructor keeps, under the constructor's names. */
  datatype Stats = Stats(roundResults: seq<real>, cumulativeProfit: seq<real>,
                         wins: nat, loses: nat, ties: nat, surrenders: nat, blackjacks: nat,
                         winAmountTotal: real)

  /** The constructor's loop body applied to a list of round results: append
      each result, add it to the running total, record the total as the next
      cumulative profit, and count the result's category. */
  method Aggregate(results: seq<real>, bet: real) returns (s: Stats)
    ensures s.roundResults == results
    ensures |s.cumulativeProfit| == |results|
    ensures forall i {:trigger s.cumulativeProfit[i]} :: 0 <= i < |results| ==> s.cumulativeProfit[i] == Sum(results[..i + 1])
    ensures s.winAmountTotal == Sum(results)
    ensures s.blackjacks == CountOf(results, bet, BlackjackWin)
    ensures s.wins == CountOf(results, bet, BlackjackWin) + CountOf(results, bet, Win)
    ensures s.surrenders == CountOf(results, bet, Surrender)
    ensures s.ties == CountOf(results, bet, Tie)
    ensures s.loses == CountOf(results, bet, Loss)
    ensures s.wins + s.loses + s.ties + s.surrenders == |results|
    ensures s.blackjacks <= s.wins
  {
    var roundResults: seq<real> := [];
    var cumulative: seq<real> := [];
    var total := 0.0;
    var wins, loses, ties, surrenders, blackjacks := 0, 0, 0, 0, 0;
    var i := 0;
    while i < |results|
      invariant 0 <= i <= |results|
      invariant roundResults == results[..i]
      invariant |cumulative| == i
      invariant forall j {:trigger cumulative[j]} :: 0 <= j < i ==> cumulative[j] == Sum(results[..j + 1])
      invariant total == Sum(results[..i])
      invariant blackjacks == CountOf(results[..i], bet, BlackjackWin)
      invariant wins == CountOf(results[..i], bet, BlackjackWin) + CountOf(results[..i], bet, Win)
      invariant surrenders == CountOf(results[..i], bet, Surrender)
      invariant ties == CountOf(results[..i], bet, Tie)
      invariant loses == CountOf(results[..i], bet, Loss)
    {
      var result := results[i];
      assert results[..i + 1][..i] == results[..i];
      roundResults := roundResults + [result];
      total := total + result;
      cumulative := cumulative + [total];
      if result == 1.5 * bet {
        blackjacks := blackjacks + 1;
        wins := wins + 1;
      } else if result == bet {
        wins := wins + 1;
      } else if result == -0.5 * bet {
        surrenders := surrenders + 1;
      } else if result == 0.0 {
        ties := ties + 1;
      } else {
        loses := loses + 1;
      }
      i := i + 1;
    }
    assert results[..i] == results;
    CountsPartition(results, bet);
    s := Stats(roundResults, cumulative, wins, loses, ties, surrenders, blackjacks, total);
  }

  /** The results of a batch of rounds, the stream positions at which the
      rounds started followed by the position after the last one, and that
      final position. */
  datatype Played = Played(results: seq<real>, starts: seq<nat>, pos: nat)

  /** What the round started at stream position `start` produced: its
      payout and the position where it left the stream, or nothing when the
      round failed. */
  function RoundFrom(t: Tables, bet: real, hitsSoft17: bool, deck: Deck, start: nat): Option<(real, nat)>
  {
    match PlayBlackjack(t, bet, hitsSoft17, deck, start)
    case Success(e) => Some((e.win, e.pos))
    case Failure(_) => None
  }

  /** `RoundFrom` for fixed tables, bet, rule and stream. */
  function RoundStep(t: Tables, bet: real, hitsSoft17: bool, deck: Deck): nat -> Option<(real, nat)>
  {
    start => RoundFrom(t, bet, hitsSoft17, deck, start)
  }

  /** The results were produced one after another by `step`: result i came
      from a step at `starts[i]` that left off at `starts[i + 1]`. */
  predicate Chained(step: nat -> Option<(real, nat)>, starts: seq<nat>, results: seq<real>)
  {
    && |starts| == |results| + 1
    && forall i :: 0 <= i < |results| ==> step(starts[i]) == Some((results[i], starts[i + 1]))
  }

  /** One more step taken where the last one left off extends the chain. */
  lemma ChainedAppend(step: nat -> Option<(real, nat)>, starts: seq<nat>, results: seq<real>, win: real, end: nat)
    requires Chained(step, starts, results)
    requires step(starts[|results|]) == Some((win, end))
    ensures Chained(step, starts + [end], results + [win])
  {
    var starts', results' := starts + [end], results + [win];
    forall i | 0 <= i < |results'|
      ensures step(starts'[i]) == Some((results'[i], starts'[i + 1]))
    {
      if i < |results| {
        assert starts'[i] == starts[i] && starts'[i + 1] == starts[i + 1] && results'[i] == results[i];
      } else {
        assert starts'[i] == starts[|results|] && starts'[i + 1] == end && results'[i] == win;
      }
    }
  }

  /** The results were played in order on the stream: round i started at
      position `starts[i]`, succeeded, paid `results[i]` and left the stream
      at `starts[i + 1]`. */
  predicate PlayedFrom(t: Tables, bet: real, hitsSoft17: bool, deck: Deck, starts: seq<nat>, results: seq<real>)
  {
    Chained(RoundStep(t, bet, hitsSoft17, deck), starts, results)
  }

  /** The batch step: `n` rounds played in order from `pos`, followed by one
      more round where they left the stream, are `n + 1` rounds played in
      order from `pos`, each paying one of the seven amounts. */
  lemma PlayedOneMore(t: Tables, bet: real, hitsSoft17: bool, deck: Deck, pos: nat, n: nat,
                      earlier: Played, round: RoundEnd, p: Played)
    requires |earlier.results| == n && |earlier.starts| == n + 1
    requires earlier.starts[0] == pos && earlier.starts[n] == earlier.pos
    requires PlayedFrom(t, bet, hitsSoft17, deck, earlier.starts, earlier.results)
    requires forall i :: 0 <= i < n ==> IsRoundOutcome(earlier.results[i], bet)
    requires PlayBlackjack(t, bet, hitsSoft17, deck, earlier.pos) == Success(round)
    requires p == Played(earlier.results + [round.win], earlier.starts + [round.pos], round.pos)
    ensures |p.results| == n + 1 && |p.starts| == n + 2 && p.starts[0] == pos && p.starts[n + 1] == p.pos
    ensures PlayedFrom(t, bet, hitsSoft17, deck, p.starts, p.results)
    ensures forall i :: 0 <= i < n + 1 ==> IsRoundOutcome(p.results[i], bet)
  {
    RoundPaysOneOfSevenAmounts(t, bet, hitsSoft17, deck, earlier.pos);
    assert RoundStep(t, bet, hitsSoft17, deck)(earlier.starts[n]) == Some((round.win, round.pos));
    ChainedAppend(RoundStep(t, bet, hitsSoft17, deck), earlier.starts, earlier.results, round.win, round.pos);
    forall i | 0 <= i < n + 1
      ensures IsRoundOutcome(p.results[i], bet)
    {
      if i < n {
        assert p.results[i] == earlier.results[i];
      }
    }
  }

  /** `range(rounds)` rounds played one after another on the card stream,
      each with the same bet and rule; the first failing lookup aborts the
      batch. Each round starts where the previous one left the stream, and
      every result is one of the seven amounts of the bet. */
  function PlayRounds(t: Tables, rounds: nat, bet: real, hitsSoft17: bool, deck: Deck, pos: nat): (r: Result<Played, RoundError>)
    ensures r.Success? ==> |r.value.results| == rounds && r.value.pos >= pos
    ensures r.Success? ==>
      var p := r.value;
      && |p.starts| == rounds + 1 && p.starts[0] == pos && p.starts[rounds] == p.pos
      && PlayedFrom(t, bet, hitsSoft17, deck, p.starts, p.results)
    ensures r.Success? ==> forall i :: 0 <= i < rounds ==> IsRoundOutcome(r.value.results[i], bet)
    ensures r.Failure? ==> !Covers(t, hitsSoft17)
  {
    if rounds == 0 then Success(Played([], [pos], pos))
    else
      match PlayRounds(t, rounds - 1, bet, hitsSoft17, deck, pos)
      case Failure(e) => Failure(e)
      case Success(earlier) =>
        match PlayBlackjack(t, bet, hitsSoft17, deck, earlier.pos)
        case Failure(e) => Failure(e)
        case Success(round) =>
          var p := Played(earlier.results + [round.win], earlier.starts + [round.pos], round.pos);
          PlayedOneMore(t, bet, hitsSoft17, deck, pos, rounds - 1, earlier, round, p);
          Success(p)
  }

  /** The amount staked over the batch, `rounds * bet_value`, the divisor of
      the win percentage. */
  function Stake(rounds: int, betValue: real): real
  {
    rounds as real * betValue
  }

  /** Why the constructor raises: a round failed, or the win percentage divides
      by `rounds * bet_value` and that product is zero. */
  datatype SimError = RoundFailed(cause: RoundError) | ZeroDivision

  /** A completed simulation: its parameters, statistics and win percentage. */
  datatype Sim = Sim(rounds: int, betValue: real, stats: Stats, winPercent: real)

  /** The `Simulation` constructor: play the rounds, aggregate them, and
      divide the total by `rounds * bet_value` for the win percentage. */
  method NewSimulation(t: Tables, rounds: int, betValue: real, hitsSoft17: bool, deck: Deck, pos: nat)
    returns (r: Result<Sim, SimError>)
    ensures r.Success? ==>
      var s := r.value.stats;
      && r.value.rounds == rounds && r.value.betValue == betValue
      && |s.roundResults| == (if rounds > 0 then rounds else 0)
      && (forall i :: 0 <= i < |s.roundResults| ==> IsRoundOutcome(s.roundResults[i], betValue))
      && s.winAmountTotal == Sum(s.roundResults)
      && (var played := PlayRounds(t, if rounds > 0 then rounds else 0, betValue, hitsSoft17, deck, pos);
          played.Success? && played.value.results == s.roundResults)
      && |s.cumulativeProfit| == |s.roundResults|
      && (forall i {:trigger s.cumulativeProfit[i]} :: 0 <= i < |s.roundResults| ==>
            s.cumulativeProfit[i] == Sum(s.roundResults[..i + 1]))
      && (rounds > 0 ==> s.cumulativeProfit[rounds - 1] == s.winAmountTotal)
      && s.blackjacks == CountOf(s.roundResults, betValue, BlackjackWin)
      && s.wins == CountOf(s.roundResults, betValue, BlackjackWin) + CountOf(s.roundResults, betValue, Win)
      && s.surrenders == CountOf(s.roundResults, betValue, Surrender)
      && s.ties == CountOf(s.roundResults, betValue, Tie)
      && s.loses == CountOf(s.roundResults, betValue, Loss)
      && s.wins + s.loses + s.ties + s.surrenders == |s.roundResults|
      && s.blackjacks <= s.wins
      && Stake(rounds, betValue) != 0.0
      && r.value.winPercent == Sum(s.roundResults) / Stake(rounds, betValue) * 100.0
    ensures r == Failure(ZeroDivision) ==> Stake(rounds, betValue) == 0.0
    ensures r.Failure? && r.error.RoundFailed? ==> !Covers(t, hitsSoft17)
    ensures Covers(t, hitsSoft17) ==> (r.Success? <==> Stake(rounds, betValue) != 0.0)
  {
    var played := PlayRounds(t, if rounds > 0 then rounds else 0, betValue, hitsSoft17, deck, pos);
    if played.Failure? {
      return Failure(RoundFailed(played.error));
    }
    var results := played.value.results;
    var stats := Aggregate(results, betValue);
    if rounds > 0 {
      assert results[..rounds] == results;
      assert stats.cumulativeProfit[rounds - 1] == stats.winAmountTotal;
    }
    var denominator := Stake(rounds, betValue);
    if denominator == 0.0 {
      return Failure(ZeroDivision);
    }
    r := Success(Sim(rounds, betValue, stats, stats.winAmountTotal / denominator * 100.0));
  }
}

=== FILE: wrappers.dfy ===
/** An optional value and a result that is either a value or an error. */
module Wrappers {

  /** A value that may be absent, such as a strategy-table entry. */
  datatype Option<+T> = None | Some(value: T)

  /** Either a computed value or the error that aborted the computation. */
  datatype Result<+R, +E> = Success(value: R) | Failure(error: E)
}
